=== FILE: README.md ===
# hamsteroids: the day cycle, the day log and the trait trainer

A Dafny model of the core of hamsteroids, a virtual-pet game. The player
gives the pet five activities a day (eat, play, rest, study, exercise).
The fifth activity ends the day, and the pet then enters a cooldown. The
day's record is appended to the saved day log, and the activities are sent
with a prompt to an external conversational agent. The next day starts
when one of these resolves the day:
- the agent answers;
- the agent reports a failure;
- a 15-second response timeout fires;
- a 2-second wait timer fires, when the agent is disabled.

A read-side loader answers queries over the log. An offline Python script
trims the log to its last six weeks and computes the next day to predict.
It also updates five personality traits from the predicted activities and
describes the pet.

Modules, one per source file, after four shared modules:

- `Wrappers`: `Option`.
- `Text`: ASCII lower-casing, `string.Join`, and decimal rendering and parsing of integers.
- `Seqs`: an order-preserving `Filter` and the subsequence relation.
- `Activities`: the `Activity` and `Day` enums, the activity names, and a five-counter `Tally`.
- `SaveData` (SaveManager.cs):
  - the `DayData` record and how it counts a day's activities;
  - the in-memory history and the save file.
- `DataLoader` (DataLoader.cs): the last record, the per-activity total, the per-week selection and the totals dictionary.
- `PettingPhase` (PettingPhaseManager.cs): the manager's cooldown state machine, the trait counters, the prompt and the trait summary.
- `GameControl` (GameController.cs):
  - the controller's day, week and clicks;
  - the whole game as one state driven by events (a click, the agent's answer, the agent's failure, the response timeout, the wait timer);
  - the game-wide invariant and the race lemmas.
- `Learn` (Python/learn.py): the recent-weeks window, the next-day rule, `update_traits` and `personality_summary`.

The save file is an abstract value: `None` means no file, and `Some(h)`
means a file holding history `h`. The response-timeout coroutine is a
pending flag. The wait-timer coroutines, which are never cancelled, are a
count of pending timers. Each deadline is an event. Each handler returns
whether it invoked `OnDayCompleted`, and the game then runs the
controller's `UpdateDay`.

Three behaviours of the code matter for what the model proves:

- **A late agent answer completes the day again.** `HandleAIFailure`
  returns early when the pet is no longer in cooldown
  (Assets/Scripts/PettingPhaseManager.cs:173). `OnResponseReceived`
  (Assets/Scripts/PettingPhaseManager.cs:189-211) has no such guard. So an
  answer that arrives after the timeout has already resolved the day ends
  the cooldown again and invokes `OnDayCompleted` a second time.
  - `GameControl.LateSuccessAdvancesTwice` proves the day advances twice.
  - `GameControl.LateSuccessCarriesClicksOver` proves what follows: a
    skipped day with no saved record, and clicks carried into the wrong day.
- **A session starts from the fields' initial values, not from the log.**
  `today`, `week` and `dailyActivityCount` are public fields initialised to
  Monday, 1 and 0 (Assets/Scripts/GameController.cs:42-44); the scene may
  override them. `GameController` never reads the saved history, so a
  restart does not continue from the last saved day. The model starts a
  session from the initial values.
- **The game and the trainer use different labels.** The game stores full
  day names ("Monday", from `today.ToString()`) and the activity `study`.
  learn.py expects "Mon".."Sun" and the activity `work`.
  `Learn.GameDayLabelsUnknown` shows that the script cannot plan a next day
  from a record the game wrote.

Two details of the code that the model keeps:

- The trait counters match activity names exactly, so the match is case-sensitive.
- `DayData` lower-cases each entry before counting it.

## Model

| member | source | states |
|---|---|---|
| Text.ToLower | Assets/Scripts/SaveManager.cs:33 | Lower-casing keeps the length and maps each character by its ASCII lower-case form. |
| Text.ToLowerNormalises | Assets/Scripts/SaveManager.cs:33 | The lower-cased string is lower-case, and a lower-case string is left unchanged. |
| Text.LowerAll | Assets/Scripts/SaveManager.cs:31-33 | Every entry of the activity list is lower-cased, position by position. |
| Text.IntRoundTrip | Assets/Scripts/PettingPhaseManager.cs:218 | The decimal text of a trait value, followed by any text that does not start with a digit, parses back to the same value. |
| Text.EntriesRoundTrip | Assets/Scripts/PettingPhaseManager.cs:213-221 | A ", "-joined list of `key:value` entries parses back to exactly the values, in order. |
| Activities.KindFromName | Assets/Scripts/SaveManager.cs:33-40 | A string selects an activity exactly when it is that activity's name; any other string selects none. |
| Activities.NameRoundTrip | Assets/Scripts/GameController.cs:91-98 | The names the controller records are distinct, lower-case, and each is recognised as its own activity. |
| Activities.DayAt | Assets/Scripts/GameController.cs:16-25 | The day at position `i` of the week has index `i` (the inverse of `DayIndex`). |
| Activities.AddAll | Assets/Scripts/SaveManager.cs:31-41 | Each counter grows by the number of list entries equal to its activity's name; other entries change nothing. |
| Activities.AddAllTotal | Assets/Scripts/SaveManager.cs:31-41 | The counters grow in total by at most the list's length, and by exactly that when every entry is a known name. |
| SaveData.NewDayData | Assets/Scripts/SaveManager.cs:18-42 | The record copies day, week and life stage, and counts each activity as the number of entries that lower-case to its name. |
| SaveData.NewDayDataTotals | Assets/Scripts/SaveManager.cs:24-41 | Counts are non-negative, sum to at most the number of entries, and sum to exactly that iff every entry, lower-cased, is an activity name. |
| SaveData.CountsIgnoreCase | Assets/Scripts/SaveManager.cs:33 | Lower-casing the list first does not change the counts. |
| SaveData.SaveDayData | Assets/Scripts/SaveManager.cs:86-96 | Appends exactly one record, leaves earlier records unchanged, and rewrites the file with the whole history. |
| SaveData.LoadGameData | Assets/Scripts/SaveManager.cs:98-112 | The history becomes the file's history, or empty when there is no file; the file is left as it is. |
| SaveData.Awake | Assets/Scripts/SaveManager.cs:71-84 | A started manager holds exactly what the file holds (empty without a file), so memory and file agree. |
| SaveData.ClearSaveData | Assets/Scripts/SaveManager.cs:119-127 | The history is empty and no file remains. |
| SaveData.OperationsKeepInSync | Assets/Scripts/SaveManager.cs:71-127 | Loading makes memory and file agree, save and clear keep them agreeing, and loading an agreeing store changes nothing. |
| SaveData.LoadAfterSave | Assets/Scripts/SaveManager.cs:86-112 | Restarting after a save loads exactly the history that save produced. |
| SaveData.TwoSavesRoundTrip | Assets/Scripts/SaveManager.cs:71-112 | Starting with no file, two saves and a restart give back the two records in save order. |
| SaveData.LoadAfterClear | Assets/Scripts/SaveManager.cs:98-127 | After clearing, or with no file, a restart starts an empty history. |
| Seqs.Filter | Assets/Scripts/DataLoader.cs:66-80 | The result holds each element as often as the input when the element is kept, and never otherwise; an element is in the result iff it is in the input and kept. |
| Seqs.FilterIsSubsequence | Assets/Scripts/DataLoader.cs:71-77 | Filtering keeps the surviving elements in input order. |
| Seqs.FilterSnoc | Assets/Scripts/DataLoader.cs:71-77 | Adding one element at the end extends the filtered result by that element exactly when it is kept. |
| Seqs.FilterPrefixStep | Assets/Scripts/DataLoader.cs:71-77 | One loop step: the filtered prefix grows by the next element iff it is kept. |
| Seqs.FilterKeepsAll | Python/learn.py:26 | When every element is kept, filtering returns the input unchanged. |
| DataLoader.GetLastDayData | Assets/Scripts/DataLoader.cs:34-44 | No record (null) iff the history is empty; otherwise the last record. |
| DataLoader.LastDayIsLatestSave | Assets/Scripts/DataLoader.cs:34-44 | After a save, the last record is the one just saved. |
| DataLoader.SumOfConcat | Assets/Scripts/DataLoader.cs:51-61 | An activity's total over two consecutive histories is the sum of their totals. |
| DataLoader.SumOf | Assets/Scripts/DataLoader.cs:51-61 | The per-activity total the loaders accumulate; it is non-negative when every record's count of that activity is. |
| DataLoader.SavedTotalsNonNegative | Assets/Scripts/SaveManager.cs:86-89 | Saving a day keeps every record's counts non-negative, so every per-activity total over a saved history is non-negative. |
| DataLoader.GetTotalActivityCount | Assets/Scripts/DataLoader.cs:46-64 | For a name that lower-cases to an activity, the result is that activity's total over all records; for any other name it is 0; it is never negative over records with non-negative counts. |
| DataLoader.GetDaysByWeek | Assets/Scripts/DataLoader.cs:66-80 | The result is the history filtered to the requested week. |
| DataLoader.DaysByWeekSelectsWeek | Assets/Scripts/DataLoader.cs:66-80 | The week's selection contains a record iff the history does and the record is of that week, each as often as in the history, in history order. |
| DataLoader.TotalsMap | Assets/Scripts/DataLoader.cs:85-92 | The dictionary has exactly the five activity names as keys. |
| DataLoader.GetTotalActivities | Assets/Scripts/DataLoader.cs:82-104 | Exactly the five activity keys, each mapped to that activity's total over all records. |
| PettingPhase.GetLifeStageFromWeek | Assets/Scripts/PettingPhaseManager.cs:120-134 | Child iff week 1, Teenager iff week 2, Adult for every other week (including 0 and negatives). |
| PettingPhase.TraitSummary | Assets/Scripts/PettingPhaseManager.cs:213-221 | The trait summary names every trait with its value, so the whole trait dictionary can be read back from it. |
| PettingPhase.Prompt | Assets/Scripts/PettingPhaseManager.cs:91-92 | The prompt is exactly three parts: an opening with "My pet is a" and the life stage's name; the day's activities joined by ", "; and a closing with the trait summary and the question about the day. |
| PettingPhase.OnMultipleActivitiesCompleted | Assets/Scripts/PettingPhaseManager.cs:73-118 | Enters cooldown; each trait grows by the entries exactly equal to its key; saves one record with the week's life stage; with the agent, sends the prompt and starts the timeout; without it, starts a wait timer. |
| PettingPhase.DayEndSavesOneRecord | Assets/Scripts/PettingPhaseManager.cs:73-87 | A day end never lowers a trait and appends exactly one record, labelled with the day, the week and the week's life stage. |
| PettingPhase.HandleAIFailure | Assets/Scripts/PettingPhaseManager.cs:171-187 | Outside cooldown nothing changes and no completion is signalled; in cooldown the cooldown ends and the day completes. |
| PettingPhase.OnRequestFailed | Assets/Scripts/PettingPhaseManager.cs:158-169 | Completes the day iff the pet was in cooldown; afterwards no cooldown and no pending timeout; traits, mood, prompts, wait timers and the agent setting unchanged. |
| PettingPhase.AIResponseTimeout | Assets/Scripts/PettingPhaseManager.cs:136-145 | Completes the day iff the timeout was pending and the pet in cooldown; afterwards the timeout is not pending; traits, mood, prompts, wait timers and the agent setting unchanged. |
| PettingPhase.CoolDownWaitTimer | Assets/Scripts/PettingPhaseManager.cs:147-156 | Completes the day iff a timer was pending and the pet in cooldown; one pending timer is used up; traits, mood, prompts, the response timeout and the agent setting unchanged. |
| PettingPhase.OnResponseReceived | Assets/Scripts/PettingPhaseManager.cs:189-211 | Always completes the day, ends cooldown and the timeout, and shows the answer's emotion; traits, prompts, wait timers and the agent setting unchanged. |
| PettingPhase.FailureAndTimeoutIgnoredAfterResolution | Assets/Scripts/PettingPhaseManager.cs:136-187 | Once an answer, a failure or the timeout has completed a day, a later failure or timeout changes nothing and completes nothing. |
| PettingPhase.NothingCompletesAfterWaitTimer | Assets/Scripts/PettingPhaseManager.cs:147-187 | Once the wait timer has completed a day, a later failure or timeout does not complete it again; a failure only clears the response timeout. |
| PettingPhase.LateSuccessCompletesAgain | Assets/Scripts/PettingPhaseManager.cs:189-211 | An answer arriving after the timeout resolved the day completes a day a second time. |
| GameControl.UpdateDay | Assets/Scripts/GameController.cs:130-146 | Resets the count; Sunday becomes Monday of the next week; otherwise the next day of the same week. |
| GameControl.UpdateDaysAdvance | Assets/Scripts/GameController.cs:130-146 | After `n` day changes the day index is `(d + n) mod 7`, and the week has grown by the number of week boundaries passed. |
| GameControl.SevenDaysMakeAWeek | Assets/Scripts/GameController.cs:135-143 | Seven day changes return to the same day of the next week. |
| GameControl.DayEnds | Assets/Scripts/GameController.cs:110-121 | Marks the day ended and empties the list. The manager enters cooldown and raises each trait by the list entries equal to its name. It saves one record holding exactly the day's list, its day name, its week and the week's life stage. It then sends the prompt for that list and restarts the response timeout (agent on), or starts one more wait timer (agent off). The mood and the agent setting are unchanged. |
| GameControl.OnDayCompleted | Assets/Scripts/GameController.cs:124-128 | The controller moves to the next day as `UpdateDay` does; the manager and the saved history are unchanged. |
| GameControl.OnActivityClicked | Assets/Scripts/GameController.cs:81-121 | Ignored in cooldown; otherwise the name is recorded and counted. The click that brings the count to five hands the list as it stands plus this name to the manager, then empties the list. That is five names unless a late answer carried clicks over. The manager enters cooldown, raises the traits by that list and saves it as one record. It sends its prompt and restarts the timeout (agent on), or starts one more wait timer (agent off). |
| GameControl.Step | Assets/Scripts/GameController.cs:124-146 | The day and week change iff the event completes a day, exactly as `UpdateDay` moves them; a completed day leaves count 0 and no cooldown. |
| GameControl.InitialInv | Assets/Scripts/GameController.cs:42-47 | A new game starts on Monday of week 1 with no clicks, an empty list and no cooldown, and so satisfies the invariant. |
| GameControl.StepKeepsInv | Assets/Scripts/GameController.cs:81-146 | Every event keeps the invariant: cooldown iff five clicks are in, otherwise fewer than five, and the week stays positive. |
| GameControl.RunKeepsInv | Assets/Scripts/GameController.cs:81-146 | Any sequence of events keeps the invariant. |
| GameControl.CountNeverExceedsMax | Assets/Scripts/GameController.cs:100-107 | In every session the day's count stays between 0 and 5 and the week stays at least 1. |
| GameControl.FifthClickEndsDay | Assets/Scripts/GameController.cs:103-121 | The fifth click enters cooldown, saves one record, empties the list and starts the timeout (agent on) or a wait timer (agent off). |
| GameControl.SixthClickIgnored | Assets/Scripts/GameController.cs:83-87 | A click after the fifth changes nothing. |
| GameControl.DisabledAgentCompletesDay | Assets/Scripts/PettingPhaseManager.cs:147-156 | Without the agent, the wait timer ends the cooldown and starts the next day without saving anything or recording an emotion. |
| GameControl.LateSuccessAdvancesTwice | Assets/Scripts/PettingPhaseManager.cs:136-211 | When the timeout resolves a day and the answer arrives later, the day advances twice. |
| GameControl.LateSuccessCarriesClicksOver | Assets/Scripts/GameController.cs:124-146 | With two clicks made between a timeout and a late answer, the answer skips a day, resets the count to 0, keeps the two names in the list, and saves nothing. |
| Learn.WeekDayNumber | Python/learn.py:9-11 | A label has a day number iff it is one of "Mon".."Sun", and that number is its position in `DAY_NAMES`. |
| Learn.MaxWeek | Python/learn.py:24 | The largest week is attained by some entry and bounds every entry. |
| Learn.KeepRecentWeeks | Python/learn.py:22-26 | An empty log stays empty; otherwise the window is no longer than the log and holds only entries of the log. |
| Learn.WindowSelectsWeeks | Python/learn.py:22-26 | The window holds an entry iff the log does and its week is at least `max(0, max_week - 5)`, each as often as in the log. |
| Learn.WindowKeepsOrder | Python/learn.py:26 | The window keeps the log order. |
| Learn.WindowKeepsLastSixWeeks | Python/learn.py:22-26 | Every entry of the last six weeks whose week is at least 0 survives the window. |
| Learn.ShortLogUnchanged | Python/learn.py:22-26 | A log whose weeks all lie in 1..6 passes through the window unchanged. |
| Learn.NextDay | Python/learn.py:58-61 | Sunday (6) rolls over to day 0 of the next week; other days advance by one in the same week; the result is a valid day number. |
| Learn.PlanNextDay | Python/learn.py:54-63 | A next day is planned iff the log is non-empty and its last entry's label is a `WEEK_DAYS` key; it is then `NextDay` of the last entry's week and day number, named from `DAY_NAMES`. |
| Learn.WindowKeepsLastEntry | Python/learn.py:22-63 | In a chronological log the window keeps the last entry, so planning from the window plans the same next day as from the whole log. |
| Learn.LastIsLatest | Python/learn.py:24-26 | In a chronological log the last entry's week is inside the window. |
| Learn.AppendKeepsChronological | Python/learn.py:54-63 | Appending the entry for the planned next day to a chronological log keeps it chronological. |
| Learn.NextDayAgreesWithGame | Python/learn.py:58-61 | The script's next-day rule and the game's `UpdateDay` agree on day index and week. |
| Learn.GameDayLabelsUnknown | Python/learn.py:56 | A record labelled with the game's full day name has no day number, so no next day can be planned from it. |
| Learn.Clamp | Python/learn.py:103-104 | The result is within 0..10, equals the input inside that range, and is the nearer bound outside it. |
| Learn.UpdateTraits | Python/learn.py:89-106 | Starts from 5s without previous traits; each trait is its previous value moved by its combination of work, play, rest and exercise, clamped into 0..10. |
| Learn.UpdateTraitsMonotone | Python/learn.py:96-100 | More work with less play never lowers discipline or work ethic, never raises sociability or playfulness, and leaves energy unchanged. |
| Learn.SociabilityMatchesPlayfulness | Python/learn.py:97-100 | Over any run of days from no traits, sociability and playfulness stay equal, and every trait stays within 0..10. |
| Learn.PersonalitySummary | Python/learn.py:119-134 | Energy is "low" iff below 4; work ethic, sociability and discipline are "high" iff at least 5; the neglect background iff discipline is below 4. |
| Learn.NeglectMeansLowDiscipline | Python/learn.py:89-126 | A neglected pet is described as low in discipline, and from no traits a first day with at least as much work as play gives a well-raised, highly disciplined pet. |

## Left out

- Rendering, UI text, buttons, animation, the day/night cycle, pet movement, the mood icon's sprite choice, the chat panel and the thinking indicator: presentation only (PetController.cs, DayNightCycle.cs, MenuController.cs and PetMoodIcon.cs are not part of this model).
- The agent's network request: its answer, its failure and its timing are events; `Emotion` is an opaque name because the agent library's types are not visible.
- Coroutine timing: a pending timer is a flag or counter, and its deadline is an event that may arrive at any point. The wait timer is not cancelled, so several can be pending.
- The `pettingManager == null` and `smartAgent == null` paths: the game model is always wired to a manager, and the agent is either enabled or disabled.
- JSON serialisation and file-system errors: the file is an abstract history value, and a corrupt or unreadable file is not modelled.
- The singleton `Instance` and Unity lifecycle calls other than the save manager's `Awake`.
- `Debug.Log` output and `LoadAndDisplayData`, which only logs.
- learn.py's random-forest training and prediction, the random perturbation and the pandas frame: the predicted activity counts are an input to `UpdateTraits`. Reading `previous_traits` from the frame and writing the new entry to data.json are left out too.
- Learn.UpdateTraits: traits are whole numbers, so `int(v)` on a previous trait is the identity here; a fractional trait read from the file is not modelled.
- Learn.WindowKeepsLastEntry: stated only for logs whose weeks start at 1 and never go down. For a log whose latest week is negative the window is empty, and the script would fail on the empty frame.
- Text.ToLower: lower-cases ASCII letters only, not the full culture-sensitive `ToLower`.
- 32-bit integer overflow of the C# counters and week number is not modelled; integers are unbounded.

=== FILE: activities.dfy ===
/** The game's vocabulary: the five activities, the seven week days, and a
    tally holding one counter per activity (the shape of both a saved day's
    counts and the pet's running trait counters). */
module Activities {
  import opened Wrappers
  import opened Text

  /** `Activity` in GameController.cs, in declaration order. */
  datatype ActivityKind = Eat | Play | Rest | Study | Exercise

  /** The lower-case name the game stores for an activity. */
  function Name(k: ActivityKind): string {
    match k
    case Eat => "eat"
    case Play => "play"
    case Rest => "rest"
    case Study => "study"
    case Exercise => "exercise"
  }

  /** The activity with exactly this name (case-sensitive), if any. */
  function KindFromName(s: string): (r: Option<ActivityKind>)
    ensures r.Some? ==> Name(r.value) == s
    ensures r.None? ==> forall k :: Name(k) != s
  {
    if s == "eat" then Some(Eat)
    else if s == "play" then Some(Play)
    else if s == "rest" then Some(Rest)
    else if s == "study" then Some(Study)
    else if s == "exercise" then Some(Exercise)
    else None
  }

  /** Names identify activities and are already lower-case, so lower-casing
      a stored name and looking it up returns the activity it was made from. */
  lemma NameRoundTrip(k: ActivityKind)
    ensures KindFromName(Name(k)) == Some(k)
    ensures KindFromName(ToLower(Name(k))) == Some(k)
    ensures forall j :: Name(j) == Name(k) ==> j == k
  {
    ToLowerNormalises(Name(k));
  }

  /** `Day` in GameController.cs, in declaration order. */
  datatype Day = Monday | Tuesday | Wednesday | Thursday | Friday | Saturday | Sunday

  /** The enum's underlying value (Monday = 0 ... Sunday = 6). */
  function DayIndex(d: Day): (i: nat)
    ensures i < 7
  {
    match d
    case Monday => 0
    case Tuesday => 1
    case Wednesday => 2
    case Thursday => 3
    case Friday => 4
    case Saturday => 5
    case Sunday => 6
  }

  /** The day whose underlying value is `i`. */
  function DayAt(i: nat): (d: Day)
    requires i < 7
    ensures DayIndex(d) == i
  {
    [Monday, Tuesday, Wednesday, Thursday, Friday, Saturday, Sunday][i]
  }

  /** `Day.ToString()`. */
  function DayName(d: Day): string {
    match d
    case Monday => "Monday"
    case Tuesday => "Tuesday"
    case Wednesday => "Wednesday"
    case Thursday => "Thursday"
    case Friday => "Friday"
    case Saturday => "Saturday"
    case Sunday => "Sunday"
  }

  /** One integer per activity. */
  datatype Tally = Tally(eat: int, play: int, rest: int, study: int, exercise: int) {

    function Get(k: ActivityKind): int {
      match k
      case Eat => eat
      case Play => play
      case Rest => rest
      case Study => study
      case Exercise => exercise
    }

    /** The tally with the counter of `k` one higher. */
    function Inc(k: ActivityKind): (r: Tally)
      ensures forall j :: r.Get(j) == Get(j) + (if j == k then 1 else 0)
      ensures r.Total() == Total() + 1
    {
      match k
      case Eat => this.(eat := eat + 1)
      case Play => this.(play := play + 1)
      case Rest => this.(rest := rest + 1)
      case Study => this.(study := study + 1)
      case Exercise => this.(exercise := exercise + 1)
    }

    /** Counter-wise sum of two tallies. */
    function Plus(o: Tally): (r: Tally)
      ensures forall k :: r.Get(k) == Get(k) + o.Get(k)
    {
      Tally(eat + o.eat, play + o.play, rest + o.rest, study + o.study, exercise + o.exercise)
    }

    function Total(): int {
      eat + play + rest + study + exercise
    }

    predicate NonNegative() {
      eat >= 0 && play >= 0 && rest >= 0 && study >= 0 && exercise >= 0
    }

    /** The counters in declaration order. */
    function Values(): seq<int> {
      [eat, play, rest, study, exercise]
    }
  }

  /** All counters zero. */
  const Zero := Tally(0, 0, 0, 0, 0)

  /** The activity names in declaration order. */
  const Names: seq<string> := [Name(Eat), Name(Play), Name(Rest), Name(Study), Name(Exercise)]

  /** Every entry of `names` is the name of an activity. */
  predicate AllKnown(names: seq<string>) {
    forall i :: 0 <= i < |names| ==> KindFromName(names[i]).Some?
  }

  /** Adds one to the counter of each entry of `names` that is exactly an
      activity name; other entries are skipped. */
  function AddAll(t: Tally, names: seq<string>): (r: Tally)
    ensures forall k :: r.Get(k) == t.Get(k) + multiset(names)[Name(k)]
    decreases |names|
  {
    if |names| == 0 then t
    else
      var init := names[..|names| - 1];
      var last := names[|names| - 1];
      assert names == init + [last];
      var prefix := AddAll(t, init);
      match KindFromName(last)
      case Some(k) =>
        NameRoundTrip(k);
        prefix.Inc(k)
      case None => prefix
  }

  /** Each entry adds at most one to the total, and exactly one when it is
      an activity name. */
  lemma {:induction false} AddAllTotal(t: Tally, names: seq<string>)
    ensures AddAll(t, names).Total() <= t.Total() + |names|
    ensures AddAll(t, names).Total() == t.Total() + |names| <==> AllKnown(names)
    decreases |names|
  {
    if |names| > 0 {
      var init := names[..|names| - 1];
      var last := names[|names| - 1];
      AddAllTotal(t, init);
      assert AllKnown(names) <==> AllKnown(init) && KindFromName(last).Some? by {
        assert forall i :: 0 <= i < |init| ==> names[i] == init[i];
      }
    }
  }
}

=== FILE: data_loader.dfy ===
/** DataLoader.cs: read-only queries over the day history held by the save
    manager. Each query takes the history as an argument. */
module DataLoader {
  import opened Wrappers
  import opened Text
  import opened Activities
  import opened Seqs
  import opened SaveData

  /** `GetLastDayData`: the most recent record, `None` (the source's `null`)
      on an empty history. */
  function GetLastDayData(history: seq<DayData>): (r: Option<DayData>)
    ensures r.None? <==> |history| == 0
    ensures r.Some? ==> r.value == history[|history| - 1]
  {
    if |history| > 0 then Some(history[|history| - 1]) else None
  }

  /** Right after a save, the last record is the one just saved. */
  lemma LastDayIsLatestSave(m: SaveManager, day: string, week: int, lifeStage: string, activities: seq<string>)
    ensures GetLastDayData(SaveDayData(m, day, week, lifeStage, activities).gameData)
         == Some(NewDayData(day, week, lifeStage, activities))
  {
  }

  /** The sum of the counter of `k` over the records of `history`, the value
      the loops of `GetTotalActivityCount` and `GetTotalActivities`
      accumulate. Records with non-negative counts give a non-negative sum. */
  function SumOf(history: seq<DayData>, k: ActivityKind): (r: int)
    ensures (forall i :: 0 <= i < |history| ==> history[i].counts.Get(k) >= 0) ==> r >= 0
    decreases |history|
  {
    if |history| == 0 then 0
    else SumOf(history[..|history| - 1], k) + history[|history| - 1].counts.Get(k)
  }

  /** Sums split over concatenation; in particular appending a record adds
      its count to the sum. */
  lemma {:induction false} SumOfConcat(a: seq<DayData>, b: seq<DayData>, k: ActivityKind)
    ensures SumOf(a + b, k) == SumOf(a, k) + SumOf(b, k)
    decreases |b|
  {
    if |b| == 0 {
      assert a + b == a;
    } else {
      var b' := b[..|b| - 1];
      assert (a + b)[..|a + b| - 1] == a + b';
      assert (a + b)[|a + b| - 1] == b[|b| - 1];
      SumOfConcat(a, b', k);
    }
  }

  /** Every record of the history has non-negative counts. */
  predicate CountsNonNegative(history: seq<DayData>) {
    forall i :: 0 <= i < |history| ==> history[i].counts.NonNegative()
  }

  /** Saving keeps every record's counts non-negative, so every total over
      a history written by the save manager is non-negative. */
  lemma SavedTotalsNonNegative(m: SaveManager, day: string, week: int, lifeStage: string,
                               activities: seq<string>, k: ActivityKind)
    requires CountsNonNegative(m.gameData)
    ensures CountsNonNegative(SaveDayData(m, day, week, lifeStage, activities).gameData)
    ensures SumOf(SaveDayData(m, day, week, lifeStage, activities).gameData, k) >= 0
  {
    var h := SaveDayData(m, day, week, lifeStage, activities).gameData;
    NewDayDataTotals(day, week, lifeStage, activities);
    assert forall i :: 0 <= i < |m.gameData| ==> h[i] == m.gameData[i];
    assert CountsNonNegative(h);
    NonNegativeGet(h, k);
  }

  lemma NonNegativeGet(history: seq<DayData>, k: ActivityKind)
    requires CountsNonNegative(history)
    ensures forall i :: 0 <= i < |history| ==> history[i].counts.Get(k) >= 0
  {
    forall i | 0 <= i < |history|
      ensures history[i].counts.Get(k) >= 0
    {
      assert history[i].counts.NonNegative();
    }
  }

  /** `GetTotalActivityCount`: the total of the activity named
      `activityType` (compared lower-cased) over the whole history, and 0
      when the name is not an activity. */
  method GetTotalActivityCount(history: seq<DayData>, activityType: string) returns (total: int)
    ensures KindFromName(ToLower(activityType)).None? ==> total == 0
    ensures forall k :: KindFromName(ToLower(activityType)) == Some(k) ==> total == SumOf(history, k)
    ensures CountsNonNegative(history) ==> total >= 0
  {
    var kind := KindFromName(ToLower(activityType));
    total := 0;
    var i := 0;
    while i < |history|
      invariant 0 <= i <= |history|
      invariant kind.None? ==> total == 0
      invariant kind.Some? ==> total == SumOf(history[..i], kind.value)
    {
      assert history[..i + 1][..i] == history[..i];
      match kind {
        case Some(k) => total := total + history[i].counts.Get(k);
        case None =>
      }
      i := i + 1;
    }
    assert history[..|history|] == history;
    if kind.Some? && CountsNonNegative(history) {
      NonNegativeGet(history, kind.value);
    }
  }

  /** The per-week selection criterion. */
  function InWeek(week: int): DayData -> bool {
    (d: DayData) => d.week == week
  }

  /** `GetDaysByWeek`: the records of week `week`, in history order. */
  method GetDaysByWeek(history: seq<DayData>, week: int) returns (days: seq<DayData>)
    ensures days == Filter(history, InWeek(week))
  {
    days := [];
    var i := 0;
    while i < |history|
      invariant 0 <= i <= |history|
      invariant days == Filter(history[..i], InWeek(week))
    {
      FilterPrefixStep(history, i, InWeek(week));
      if history[i].week == week {
        days := days + [history[i]];
      }
      i := i + 1;
    }
    assert history[..|history|] == history;
  }

  /** The per-week selection holds exactly the records of that week, each as
      often as in the history, and keeps them in history order. */
  lemma DaysByWeekSelectsWeek(history: seq<DayData>, week: int)
    ensures forall d :: d in Filter(history, InWeek(week)) <==> d in history && d.week == week
    ensures forall d :: multiset(Filter(history, InWeek(week)))[d]
                     == if d.week == week then multiset(history)[d] else 0
    ensures IsSubsequence(Filter(history, InWeek(week)), history)
  {
    FilterIsSubsequence(history, InWeek(week));
  }

  /** The totals as `GetTotalActivities` returns them: one entry per
      activity name. */
  function TotalsMap(t: Tally): (r: map<string, int>)
    ensures r.Keys == {"eat", "play", "rest", "study", "exercise"}
    ensures forall k :: Name(k) in r && r[Name(k)] == t.Get(k)
  {
    map["eat" := t.eat, "play" := t.play, "rest" := t.rest, "study" := t.study, "exercise" := t.exercise]
  }

  /** `GetTotalActivities`: for each of the five activity names, its total
      over the whole history; all zero on an empty history. */
  method GetTotalActivities(history: seq<DayData>) returns (totals: map<string, int>)
    ensures totals.Keys == {"eat", "play", "rest", "study", "exercise"}
    ensures forall k :: Name(k) in totals && totals[Name(k)] == SumOf(history, k)
  {
    var acc := Zero;
    var i := 0;
    while i < |history|
      invariant 0 <= i <= |history|
      invariant forall k :: acc.Get(k) == SumOf(history[..i], k)
    {
      assert history[..i + 1][..i] == history[..i];
      acc := acc.Plus(history[i].counts);
      i := i + 1;
    }
    assert history[..|history|] == history;
    totals := TotalsMap(acc);
  }
}

=== FILE: game_controller.dfy ===
/** GameController.cs: the current day and week, the activities clicked
    today, and the whole game as one state driven by events (activity
    clicks, the agent's answers, and the manager's two timers). The
    controller is wired to a manager, so every click consults its cooldown
    and every `OnDayCompleted` it invokes runs `UpdateDay`. */
module GameControl {
  import opened Wrappers
  import opened Activities
  import opened SaveData
  import opened PettingPhase

  /** `maxDailyActivities`. */
  const MaxDailyActivities := 5

  /** The controller's fields `today`, `week`, `dailyActivityCount`,
      `isDayEnded` and `dailyActivities`. */
  datatype Controller = Controller(
    today: Day,
    week: int,
    dailyActivityCount: int,
    isDayEnded: bool,
    dailyActivities: seq<string>)

  const InitialController := Controller(Monday, 1, 0, false, [])

  /** `UpdateDay`: resets the day's count and moves to the next day, from
      Sunday to Monday of the next week. The activity list is left as it is. */
  function UpdateDay(c: Controller): (r: Controller)
    ensures r.dailyActivityCount == 0 && !r.isDayEnded && r.dailyActivities == c.dailyActivities
    ensures c.today == Sunday ==> r.today == Monday && r.week == c.week + 1
    ensures c.today != Sunday ==> DayIndex(r.today) == DayIndex(c.today) + 1 && r.week == c.week
  {
    var reset := c.(dailyActivityCount := 0, isDayEnded := false);
    if c.today == Sunday then reset.(today := Monday, week := c.week + 1)
    else reset.(today := DayAt(DayIndex(c.today) + 1))
  }

  /** `n` consecutive calls of `UpdateDay`. */
  function UpdateDays(c: Controller, n: nat): Controller
    decreases n
  {
    if n == 0 then c else UpdateDays(UpdateDay(c), n - 1)
  }

  /** After `n` day changes the day index has advanced by `n` modulo 7 and
      the week by the number of Sundays passed. */
  lemma {:induction false} UpdateDaysAdvance(c: Controller, n: nat)
    ensures DayIndex(UpdateDays(c, n).today) == (DayIndex(c.today) + n) % 7
    ensures UpdateDays(c, n).week == c.week + (DayIndex(c.today) + n) / 7
    decreases n
  {
    if n > 0 {
      var c1 := UpdateDay(c);
      UpdateDaysAdvance(c1, n - 1);
      var d := DayIndex(c.today);
      if c.today == Sunday {
        assert DayIndex(c1.today) == 0 && d == 6;
        assert (d + n) % 7 == (n - 1) % 7 && (d + n) / 7 == 1 + (n - 1) / 7;
      } else {
        assert DayIndex(c1.today) == d + 1 && d < 6;
      }
    }
  }

  /** Seven day changes bring back the same day of the next week. */
  lemma SevenDaysMakeAWeek(c: Controller)
    ensures UpdateDays(c, 7).today == c.today
    ensures UpdateDays(c, 7).week == c.week + 1
  {
    UpdateDaysAdvance(c, 7);
    var d := DayIndex(c.today);
    assert (d + 7) % 7 == d && (d + 7) / 7 == 1;
    assert DayAt(d) == c.today;
  }

  /** The whole game: controller, manager and save manager. */
  datatype Game = Game(ctrl: Controller, mgr: Manager, store: SaveManager)

  /** A new session: fresh controller and manager, history loaded from the file. */
  function InitialGame(agentEnabled: bool, file: Option<seq<DayData>>): Game {
    Game(InitialController, InitialManager(agentEnabled), Awake(file))
  }

  /** `DayEnds`: hands the list, the day's name and the week to the manager,
      then empties the list. The day's record holds exactly the list as it
      was, and the controller keeps its day, week and count. The manager
      raises the traits by the list, then sends the prompt and restarts the
      response timeout (agent on) or starts one more wait timer (agent off). */
  function DayEnds(g: Game): (r: Game)
    ensures r.ctrl == g.ctrl.(isDayEnded := true, dailyActivities := [])
    ensures r.mgr.isCoolDown && r.mgr.agentEnabled == g.mgr.agentEnabled && r.mgr.mood == g.mgr.mood
    ensures forall k :: r.mgr.petTraits.Get(k) == g.mgr.petTraits.Get(k) + multiset(g.ctrl.dailyActivities)[Name(k)]
    ensures g.mgr.agentEnabled ==>
              && r.mgr.timeoutRunning
              && r.mgr.pendingWaitTimers == g.mgr.pendingWaitTimers
              && r.mgr.sentPrompts
                 == g.mgr.sentPrompts + [Prompt(GetLifeStageFromWeek(g.ctrl.week), g.ctrl.dailyActivities, r.mgr.petTraits)]
    ensures !g.mgr.agentEnabled ==>
              && r.mgr.timeoutRunning == g.mgr.timeoutRunning
              && r.mgr.pendingWaitTimers == g.mgr.pendingWaitTimers + 1
              && r.mgr.sentPrompts == g.mgr.sentPrompts
    ensures r.store == SaveDayData(g.store, DayName(g.ctrl.today), g.ctrl.week,
                                   LifeStageName(GetLifeStageFromWeek(g.ctrl.week)),
                                   g.ctrl.dailyActivities)
  {
    var ended := OnMultipleActivitiesCompleted(
      g.mgr, g.store, g.ctrl.dailyActivities, DayName(g.ctrl.today), g.ctrl.week);
    Game(g.ctrl.(isDayEnded := true, dailyActivities := []), ended.mgr, ended.store)
  }

  /** `OnActivityClicked`: ignored in cooldown; otherwise records the
      activity's name, counts it, and ends the day at the fifth. */
  function OnActivityClicked(g: Game, a: ActivityKind): (r: Game)
    ensures g.mgr.isCoolDown ==> r == g
    ensures r.ctrl.today == g.ctrl.today && r.ctrl.week == g.ctrl.week
    ensures !g.mgr.isCoolDown ==> r.ctrl.dailyActivityCount == g.ctrl.dailyActivityCount + 1
    ensures !g.mgr.isCoolDown && g.ctrl.dailyActivityCount + 1 < MaxDailyActivities ==>
              && r.ctrl.dailyActivities == g.ctrl.dailyActivities + [Name(a)]
              && r.mgr == g.mgr && r.store == g.store
    ensures !g.mgr.isCoolDown && g.ctrl.dailyActivityCount + 1 >= MaxDailyActivities ==>
              && r.ctrl.dailyActivities == []
              && r.ctrl.isDayEnded
              && r.mgr.isCoolDown
              && r.store == SaveDayData(g.store, DayName(g.ctrl.today), g.ctrl.week,
                                        LifeStageName(GetLifeStageFromWeek(g.ctrl.week)),
                                        g.ctrl.dailyActivities + [Name(a)])
              && r.mgr.agentEnabled == g.mgr.agentEnabled && r.mgr.mood == g.mgr.mood
              && (forall k :: r.mgr.petTraits.Get(k)
                              == g.mgr.petTraits.Get(k) + multiset(g.ctrl.dailyActivities + [Name(a)])[Name(k)])
    ensures !g.mgr.isCoolDown && g.ctrl.dailyActivityCount + 1 >= MaxDailyActivities && g.mgr.agentEnabled ==>
              && r.mgr.timeoutRunning
              && r.mgr.pendingWaitTimers == g.mgr.pendingWaitTimers
              && r.mgr.sentPrompts
                 == g.mgr.sentPrompts + [Prompt(GetLifeStageFromWeek(g.ctrl.week), g.ctrl.dailyActivities + [Name(a)], r.mgr.petTraits)]
    ensures !g.mgr.isCoolDown && g.ctrl.dailyActivityCount + 1 >= MaxDailyActivities && !g.mgr.agentEnabled ==>
              && r.mgr.timeoutRunning == g.mgr.timeoutRunning
              && r.mgr.pendingWaitTimers == g.mgr.pendingWaitTimers + 1
              && r.mgr.sentPrompts == g.mgr.sentPrompts
  {
    if g.mgr.isCoolDown then g
    else
      var c := g.ctrl.(dailyActivities := g.ctrl.dailyActivities + [Name(a)],
                       dailyActivityCount := g.ctrl.dailyActivityCount + 1);
      var clicked := g.(ctrl := c);
      if c.dailyActivityCount >= MaxDailyActivities then DayEnds(clicked) else clicked
  }

  /** `OnDayCompleted`, as subscribed to the manager's event: the controller
      moves to the next day; the manager and the saved history are left
      as they are. */
  function OnDayCompleted(g: Game): (r: Game)
    ensures r.ctrl == UpdateDay(g.ctrl)
    ensures r.mgr == g.mgr && r.store == g.store
  {
    g.(ctrl := UpdateDay(g.ctrl))
  }

  /** Takes a manager handler's result into the game, running the
      controller's listener when the handler invoked `OnDayCompleted`. */
  function Settle(g: Game, reaction: Reaction): Game {
    var g' := g.(mgr := reaction.mgr);
    if reaction.dayCompleted then OnDayCompleted(g') else g'
  }

  /** What can happen to the game. */
  datatype Event =
    | Clicked(activity: ActivityKind)
    | AgentResponded(emotion: Emotion)
    | AgentFailed(errorMessage: string)
    | ResponseTimeoutElapsed
    | WaitTimerElapsed

  /** Whether the handler of `e` invokes `OnDayCompleted` in state `g`: a
      click never does, a response always does, and the failure and the
      timers only while the pet is in cooldown (the timers also only while
      pending). */
  predicate Completes(g: Game, e: Event) {
    match e
    case Clicked(_) => false
    case AgentResponded(_) => true
    case AgentFailed(_) => g.mgr.isCoolDown
    case ResponseTimeoutElapsed => g.mgr.timeoutRunning && g.mgr.isCoolDown
    case WaitTimerElapsed => g.mgr.pendingWaitTimers > 0 && g.mgr.isCoolDown
  }

  /** The game after one event. The day and week change only when the
      event completes the day, and then exactly as `UpdateDay` moves them. */
  function Step(g: Game, e: Event): (r: Game)
    ensures Completes(g, e) ==> r.ctrl.today == UpdateDay(g.ctrl).today && r.ctrl.week == UpdateDay(g.ctrl).week
    ensures !Completes(g, e) ==> r.ctrl.today == g.ctrl.today && r.ctrl.week == g.ctrl.week
    ensures Completes(g, e) ==> r.ctrl.dailyActivityCount == 0 && !r.mgr.isCoolDown
  {
    match e
    case Clicked(a) => OnActivityClicked(g, a)
    case AgentResponded(emotion) => Settle(g, OnResponseReceived(g.mgr, emotion))
    case AgentFailed(message) => Settle(g, OnRequestFailed(g.mgr, message))
    case ResponseTimeoutElapsed => Settle(g, AIResponseTimeout(g.mgr))
    case WaitTimerElapsed => Settle(g, CoolDownWaitTimer(g.mgr))
  }

  /** The game after a sequence of events, oldest first. */
  function Run(g: Game, events: seq<Event>): Game
    decreases |events|
  {
    if |events| == 0 then g else Run(Step(g, events[0]), events[1..])
  }

  /** The pet is in cooldown exactly when the day's five activities are in;
      otherwise fewer than five have been clicked. */
  predicate Inv(g: Game) {
    && g.ctrl.week >= 1
    && (g.mgr.isCoolDown ==> g.ctrl.dailyActivityCount == MaxDailyActivities)
    && (!g.mgr.isCoolDown ==> 0 <= g.ctrl.dailyActivityCount < MaxDailyActivities)
  }

  lemma InitialInv(agentEnabled: bool, file: Option<seq<DayData>>)
    ensures Inv(InitialGame(agentEnabled, file))
    ensures InitialGame(agentEnabled, file).ctrl == Controller(Monday, 1, 0, false, [])
    ensures !InitialGame(agentEnabled, file).mgr.isCoolDown
  {
  }

  /** Every event keeps the invariant. */
  lemma StepKeepsInv(g: Game, e: Event)
    requires Inv(g)
    ensures Inv(Step(g, e))
  {
    match e
    case Clicked(a) =>
    case AgentResponded(_) =>
    case AgentFailed(_) =>
    case ResponseTimeoutElapsed =>
    case WaitTimerElapsed =>
  }

  lemma {:induction false} RunKeepsInv(g: Game, events: seq<Event>)
    requires Inv(g)
    ensures Inv(Run(g, events))
    decreases |events|
  {
    if |events| > 0 {
      StepKeepsInv(g, events[0]);
      RunKeepsInv(Step(g, events[0]), events[1..]);
    }
  }

  /** In every session, whatever happens, the day's count stays between 0
      and five and the week stays positive. */
  lemma CountNeverExceedsMax(agentEnabled: bool, file: Option<seq<DayData>>, events: seq<Event>)
    ensures 0 <= Run(InitialGame(agentEnabled, file), events).ctrl.dailyActivityCount <= MaxDailyActivities
    ensures Run(InitialGame(agentEnabled, file), events).ctrl.week >= 1
  {
    InitialInv(agentEnabled, file);
    RunKeepsInv(InitialGame(agentEnabled, file), events);
  }

  /** The fifth click of a day ends it: the pet enters cooldown, one record
      is saved, the list is emptied, and the agent's timeout or the wait
      timer is started. */
  lemma FifthClickEndsDay(g: Game, fifth: ActivityKind)
    requires Inv(g) && !g.mgr.isCoolDown && g.ctrl.dailyActivityCount == MaxDailyActivities - 1
    ensures var g1 := Step(g, Clicked(fifth));
            && g1.mgr.isCoolDown
            && g1.ctrl == g.ctrl.(dailyActivityCount := MaxDailyActivities, isDayEnded := true, dailyActivities := [])
            && |g1.store.gameData| == |g.store.gameData| + 1
            && g1.mgr.agentEnabled == g.mgr.agentEnabled
            && g1.mgr.mood == g.mgr.mood
            && (g.mgr.agentEnabled ==> g1.mgr.timeoutRunning)
            && (!g.mgr.agentEnabled ==> g1.mgr.pendingWaitTimers > 0)
  {
  }

  /** A sixth click after the fifth changes nothing. */
  lemma SixthClickIgnored(g: Game, fifth: ActivityKind, sixth: ActivityKind)
    requires Inv(g) && !g.mgr.isCoolDown && g.ctrl.dailyActivityCount == MaxDailyActivities - 1
    ensures Step(Step(g, Clicked(fifth)), Clicked(sixth)) == Step(g, Clicked(fifth))
  {
    FifthClickEndsDay(g, fifth);
  }

  /** With the agent disabled, a day that ended (by `FifthClickEndsDay`
      a wait timer is then pending) is completed by the wait timer: cooldown
      ends, the next day starts, and no emotion is recorded. */
  lemma DisabledAgentCompletesDay(g: Game)
    requires Inv(g) && !g.mgr.agentEnabled && g.mgr.isCoolDown && g.mgr.pendingWaitTimers > 0
    ensures var next := Step(g, WaitTimerElapsed);
            && !next.mgr.isCoolDown
            && next.mgr.mood == g.mgr.mood
            && next.ctrl == UpdateDay(g.ctrl)
            && next.store == g.store
  {
  }

  /** The response-timeout race as written: when the timeout resolves a day
      and the agent's success arrives afterwards, the day advances twice. */
  lemma LateSuccessAdvancesTwice(g: Game, emotion: Emotion)
    requires g.mgr.isCoolDown && g.mgr.timeoutRunning
    ensures var g1 := Step(g, ResponseTimeoutElapsed);
            var g2 := Step(g1, AgentResponded(emotion));
            && g1.ctrl == UpdateDay(g.ctrl)
            && g2.ctrl == UpdateDay(UpdateDay(g.ctrl))
  {
  }

  /** The consequence for the activity list: when a day that ended with
      the agent's timeout pending is resolved by the timeout, and two clicks
      of the next day are made before the late success arrives, the success
      skips a whole day, resets the count but keeps the two clicks in the
      list, and saves no record of the skipped day. */
  lemma LateSuccessCarriesClicksOver(g: Game, a: ActivityKind, b: ActivityKind, emotion: Emotion)
    requires Inv(g) && g.mgr.isCoolDown && g.mgr.timeoutRunning && g.ctrl.dailyActivities == []
    ensures var r := Step(Step(Step(Step(g, ResponseTimeoutElapsed), Clicked(a)), Clicked(b)),
                          AgentResponded(emotion));
            && r.ctrl.today == UpdateDays(g.ctrl, 2).today
            && r.ctrl.week == UpdateDays(g.ctrl, 2).week
            && r.ctrl.dailyActivityCount == 0
            && r.ctrl.dailyActivities == [Name(a), Name(b)]
            && r.store == g.store
  {
    var g1 := Step(g, ResponseTimeoutElapsed);
    assert g1.ctrl == UpdateDay(g.ctrl) && !g1.mgr.isCoolDown;
    var g3 := Step(Step(g1, Clicked(a)), Clicked(b));
    assert g3.ctrl.dailyActivities == [Name(a), Name(b)];
    assert UpdateDays(g.ctrl, 2) == UpdateDay(UpdateDay(g.ctrl));
  }
}

=== FILE: learn.dfy ===
/** Python/learn.py: the offline trainer's integer logic — the recent-weeks
    window over the log, the next day to predict, the trait update and the
    personality summary. Training, prediction and file handling are not
    modelled; the predicted activity counts are an input. */
module Learn {
  import opened Wrappers
  import opened Seqs
  import opened Activities
  import opened GameControl

  /** `MAX_WEEKS`. */
  const MaxWeeks := 6

  /** `DAY_NAMES`; `WEEK_DAYS` maps each to its position. */
  const DayNames: seq<string> := ["Mon", "Tue", "Wed", "Thu", "Fri", "Sat", "Sun"]

  /** `WEEK_DAYS[name]`; `None` where the dictionary raises `KeyError`. */
  function WeekDayNumber(name: string): (r: Option<nat>)
    ensures r.Some? ==> r.value < 7 && DayNames[r.value] == name
    ensures r.None? ==> name !in DayNames
  {
    if name == "Mon" then Some(0)
    else if name == "Tue" then Some(1)
    else if name == "Wed" then Some(2)
    else if name == "Thu" then Some(3)
    else if name == "Fri" then Some(4)
    else if name == "Sat" then Some(5)
    else if name == "Sun" then Some(6)
    else None
  }

  /** A log entry, reduced to the fields the script reads before training. */
  datatype Entry = Entry(week: int, day: string)

  /** The largest week in a non-empty log. */
  function MaxWeek(data: seq<Entry>): (m: int)
    requires |data| > 0
    ensures forall i :: 0 <= i < |data| ==> data[i].week <= m
    ensures exists i :: 0 <= i < |data| && data[i].week == m
    decreases |data|
  {
    if |data| == 1 then data[0].week
    else
      var rest := MaxWeek(data[1..]);
      assert forall i :: 1 <= i < |data| ==> data[i] == data[1..][i - 1];
      if data[0].week >= rest then data[0].week else rest
  }

  /** `min_week`: the first week kept by the window. */
  function WindowStart(data: seq<Entry>): int
    requires |data| > 0
  {
    var start := MaxWeek(data) - MaxWeeks + 1;
    if start > 0 then start else 0
  }

  function AtLeastWeek(w: int): Entry -> bool {
    (e: Entry) => e.week >= w
  }

  /** Keeps only the last `MAX_WEEKS` weeks of the log; an empty log is
      left as it is. */
  function KeepRecentWeeks(data: seq<Entry>): (r: seq<Entry>)
    ensures |data| == 0 ==> r == []
    ensures |r| <= |data|
    ensures forall e :: e in r ==> e in data
  {
    if |data| == 0 then data else Filter(data, AtLeastWeek(WindowStart(data)))
  }

  /** The window keeps exactly the entries of week `min_week` or later,
      each as often as it occurs in the log. */
  lemma WindowSelectsWeeks(data: seq<Entry>)
    requires |data| > 0
    ensures forall e :: e in KeepRecentWeeks(data) <==> e in data && e.week >= WindowStart(data)
    ensures forall e :: multiset(KeepRecentWeeks(data))[e]
                     == if e.week >= WindowStart(data) then multiset(data)[e] else 0
  {
    var keep := AtLeastWeek(WindowStart(data));
    assert forall e :: keep(e) == (e.week >= WindowStart(data));
  }

  /** The window keeps the log order. */
  lemma WindowKeepsOrder(data: seq<Entry>)
    ensures IsSubsequence(KeepRecentWeeks(data), data)
  {
    if |data| == 0 {
      assert IsSubsequence(data, data);
    } else {
      FilterIsSubsequence(data, AtLeastWeek(WindowStart(data)));
    }
  }

  /** Every entry of the last `MAX_WEEKS` weeks whose week is at least 0
      survives the window. A log whose latest week is negative has an empty
      window, since `min_week` is never below 0. */
  lemma WindowKeepsLastSixWeeks(data: seq<Entry>, e: Entry)
    requires e in data && e.week >= 0 && e.week > MaxWeek(data) - MaxWeeks
    ensures e in KeepRecentWeeks(data)
  {
    var keep := AtLeastWeek(WindowStart(data));
    assert keep(e);
  }

  /** A log that spans only weeks 1 to 6 passes through the window unchanged. */
  lemma ShortLogUnchanged(data: seq<Entry>)
    requires forall i :: 0 <= i < |data| ==> 1 <= data[i].week <= MaxWeeks
    ensures KeepRecentWeeks(data) == data
  {
    if |data| > 0 {
      var keep := AtLeastWeek(WindowStart(data));
      var i :| 0 <= i < |data| && data[i].week == MaxWeek(data);
      assert WindowStart(data) <= 1;
      assert forall j :: 0 <= j < |data| ==> keep(data[j]);
      FilterKeepsAll(data, keep);
    }
  }

  /** The next day after the last logged one: Sunday (6) rolls over to
      Monday (0) of the next week. */
  function NextDay(lastWeek: int, lastDayNum: nat): (r: (int, nat))
    requires lastDayNum < 7
    ensures r.1 < 7
    ensures lastDayNum == 6 ==> r == (lastWeek + 1, 0)
    ensures lastDayNum < 6 ==> r == (lastWeek, lastDayNum + 1)
  {
    if lastDayNum == 6 then (lastWeek + 1, 0) else (lastWeek, lastDayNum + 1)
  }

  /** The week and day name the script predicts for, from the last entry of
      the log; `None` where it fails (an empty log, or a day label that is
      not a key of `WEEK_DAYS`). */
  function PlanNextDay(data: seq<Entry>): (r: Option<(int, string)>)
    ensures r.Some? <==> |data| > 0 && data[|data| - 1].day in DayNames
    ensures r.Some? ==>
              var last := data[|data| - 1];
              var n := WeekDayNumber(last.day).value;
              r.value == (NextDay(last.week, n).0, DayNames[NextDay(last.week, n).1])
  {
    if |data| == 0 then None
    else
      var last := data[|data| - 1];
      match WeekDayNumber(last.day)
      case None => None
      case Some(n) =>
        var (week, dayNum) := NextDay(last.week, n);
        Some((week, DayNames[dayNum]))
  }

  /** Weeks start at 1 and never go down along the log. The script keeps a
      log in this shape: each entry it appends is the next day of the last
      one (`AppendKeepsChronological`). */
  predicate Chronological(data: seq<Entry>) {
    && (forall i :: 0 <= i < |data| ==> data[i].week >= 1)
    && (forall i, j :: 0 <= i < j < |data| ==> data[i].week <= data[j].week)
  }

  /** In a chronological log the last entry is of the latest week, so the
      window keeps it and the next day is planned from the true last day. */
  lemma WindowKeepsLastEntry(data: seq<Entry>)
    requires Chronological(data)
    ensures PlanNextDay(KeepRecentWeeks(data)) == PlanNextDay(data)
  {
    if |data| > 0 {
      var start := WindowStart(data);
      var keep := AtLeastWeek(start);
      var last := data[|data| - 1];
      LastIsLatest(data);
      assert keep(last);
      var init := data[..|data| - 1];
      assert data == init + [last];
      FilterSnoc(init, last, keep);
    }
  }

  lemma LastIsLatest(data: seq<Entry>)
    requires |data| > 0 && Chronological(data)
    ensures data[|data| - 1].week >= WindowStart(data)
  {
    var i :| 0 <= i < |data| && data[i].week == MaxWeek(data);
    assert data[|data| - 1].week >= data[i].week;
  }

  /** The entry the script appends (learn.py:141-154) is for the planned
      next day, so appending it keeps the log chronological. */
  lemma AppendKeepsChronological(data: seq<Entry>, week: int, day: string)
    requires Chronological(data)
    requires PlanNextDay(data) == Some((week, day))
    ensures Chronological(data + [Entry(week, day)])
  {
    var last := data[|data| - 1];
    assert week >= last.week;
    var d := data + [Entry(week, day)];
    forall i, j | 0 <= i < j < |d|
      ensures d[i].week <= d[j].week
    {
      if j == |data| {
        assert d[i].week <= last.week;
      }
    }
  }

  /** The trainer's next-day rule and the game's `UpdateDay` agree on the
      day index and the week. */
  lemma NextDayAgreesWithGame(c: Controller)
    ensures NextDay(c.week, DayIndex(c.today)) == (UpdateDay(c).week, DayIndex(UpdateDay(c).today))
  {
  }

  /** The game labels a saved day with the full day name ("Monday"), which
      is not a key of `WEEK_DAYS`: a log whose last entry was written by
      the game gives the script no next day. */
  lemma GameDayLabelsUnknown(data: seq<Entry>, d: Day)
    requires |data| > 0 && data[|data| - 1].day == DayName(d)
    ensures WeekDayNumber(DayName(d)).None?
    ensures PlanNextDay(data).None?
  {
  }

  /** `TRAIT_NAMES`, as fields. */
  datatype Traits = Traits(discipline: int, sociability: int, energy: int, workEthic: int, playfulness: int)

  /** The predicted activity counts (`ACTIVITIES`). */
  datatype DayActivities = DayActivities(eat: int, play: int, rest: int, work: int, exercise: int)

  /** The mid-value start used when there are no previous traits. */
  const DefaultTraits := Traits(5, 5, 5, 5, 5)

  /** `max(0, min(10, x))`. */
  function Clamp(x: int): (r: int)
    ensures 0 <= r <= 10
    ensures 0 <= x <= 10 ==> r == x
    ensures x < 0 ==> r == 0
    ensures x > 10 ==> r == 10
  {
    if x < 0 then 0 else if x > 10 then 10 else x
  }

  predicate InRange(t: Traits) {
    && 0 <= t.discipline <= 10
    && 0 <= t.sociability <= 10
    && 0 <= t.energy <= 10
    && 0 <= t.workEthic <= 10
    && 0 <= t.playfulness <= 10
  }

  /** `update_traits`: starts from the previous traits (all 5 when there
      are none), moves each by its combination of the day's work, play,
      rest and exercise, and clamps it to 0..10. */
  function UpdateTraits(previous: Option<Traits>, today: DayActivities): (r: Traits)
    ensures InRange(r)
    ensures var p := previous.GetOr(DefaultTraits);
            && r.discipline == Clamp(p.discipline + today.work - today.play)
            && r.sociability == Clamp(p.sociability + today.play - today.work)
            && r.energy == Clamp(p.energy + today.rest - today.exercise)
            && r.workEthic == Clamp(p.workEthic + today.work + today.exercise - today.play)
            && r.playfulness == Clamp(p.playfulness + today.play - today.work)
  {
    var p := previous.GetOr(DefaultTraits);
    Traits(
      Clamp(p.discipline + today.work - today.play),
      Clamp(p.sociability + today.play - today.work),
      Clamp(p.energy + today.rest - today.exercise),
      Clamp(p.workEthic + today.work + today.exercise - today.play),
      Clamp(p.playfulness + today.play - today.work))
  }

  /** More work never lowers discipline or work ethic and never raises
      sociability or playfulness; more play does the opposite. */
  lemma UpdateTraitsMonotone(previous: Option<Traits>, today: DayActivities, more: DayActivities)
    requires more.eat == today.eat && more.rest == today.rest && more.exercise == today.exercise
    requires more.work >= today.work && more.play <= today.play
    ensures UpdateTraits(previous, more).discipline >= UpdateTraits(previous, today).discipline
    ensures UpdateTraits(previous, more).workEthic >= UpdateTraits(previous, today).workEthic
    ensures UpdateTraits(previous, more).sociability <= UpdateTraits(previous, today).sociability
    ensures UpdateTraits(previous, more).playfulness <= UpdateTraits(previous, today).playfulness
    ensures UpdateTraits(previous, more).energy == UpdateTraits(previous, today).energy
  {
  }

  /** The traits after running the script once per day of `days`, each run
      starting from the previous run's traits. */
  function TraitsAfter(previous: Option<Traits>, days: seq<DayActivities>): Option<Traits>
    decreases |days|
  {
    if |days| == 0 then previous
    else TraitsAfter(Some(UpdateTraits(previous, days[0])), days[1..])
  }

  /** Sociability and playfulness get the same change every day, so from the
      default start (or any start where they are equal) they stay equal;
      after at least one day every trait is in 0..10. */
  lemma {:induction false} SociabilityMatchesPlayfulness(previous: Option<Traits>, days: seq<DayActivities>)
    requires previous.None? || previous.value.sociability == previous.value.playfulness
    ensures var r := TraitsAfter(previous, days);
            r.Some? ==> r.value.sociability == r.value.playfulness
    ensures |days| > 0 ==> TraitsAfter(previous, days).Some? && InRange(TraitsAfter(previous, days).value)
    decreases |days|
  {
    if |days| > 0 {
      SociabilityMatchesPlayfulness(Some(UpdateTraits(previous, days[0])), days[1..]);
    }
  }

  const NeglectBackground := "Learned some bad habits due to neglect"
  const RaisedBackground := "Well-raised with good routines"

  /** The returned dictionary of `personality_summary`. */
  datatype Personality = Personality(energy: string, workEthic: string, sociability: string, discipline: string, background: string)

  /** `personality_summary`; the day's activities are passed but not used. */
  function PersonalitySummary(traits: Traits, activities: DayActivities): (p: Personality)
    ensures p.energy == "low" <==> traits.energy < 4
    ensures p.workEthic == "high" <==> traits.workEthic >= 5
    ensures p.sociability == "high" <==> traits.sociability >= 5
    ensures p.discipline == "high" <==> traits.discipline >= 5
    ensures p.background == NeglectBackground <==> traits.discipline < 4
    ensures p.energy in {"low", "high"} && p.workEthic in {"low", "high"}
    ensures p.sociability in {"low", "high"} && p.discipline in {"low", "high"}
    ensures p.background in {NeglectBackground, RaisedBackground}
  {
    Personality(
      if traits.energy < 4 then "low" else "high",
      if traits.workEthic >= 5 then "high" else "low",
      if traits.sociability >= 5 then "high" else "low",
      if traits.discipline >= 5 then "high" else "low",
      if traits.discipline < 4 then NeglectBackground else RaisedBackground)
  }

  /** A pet described as neglected is also described as low in discipline,
      and a pet from the default start whose first day had at least as much
      work as play is described as well-raised and disciplined. */
  lemma NeglectMeansLowDiscipline(traits: Traits, activities: DayActivities)
    ensures PersonalitySummary(traits, activities).background == NeglectBackground
        ==> PersonalitySummary(traits, activities).discipline == "low"
    ensures activities.work >= activities.play ==>
              && PersonalitySummary(UpdateTraits(None, activities), activities).background == RaisedBackground
              && PersonalitySummary(UpdateTraits(None, activities), activities).discipline == "high"
  {
  }
}

=== FILE: petting_phase_manager.dfy ===
/** PettingPhaseManager.cs: the pet's cooldown between days, its running
    trait counters, and the resolution of a finished day by the AI agent,
    the agent's failure, the response timeout, or the disabled-agent timer.

    Unity coroutines and the agent are events: each handler below is a pure
    transition on an immutable `Manager` value. A handler that invokes
    `OnDayCompleted` reports it in the `dayCompleted` flag of its result. */
module PettingPhase {
  import opened Wrappers
  import opened Text
  import opened Activities
  import opened SaveData

  datatype LifeStage = Child | Teenager | Adult

  /** `GetLifeStageFromWeek`. */
  function GetLifeStageFromWeek(week: int): (s: LifeStage)
    ensures s == Child <==> week == 1
    ensures s == Teenager <==> week == 2
    ensures s == Adult <==> week <= 0 || week >= 3
  {
    if week == 1 then Child
    else if week == 2 then Teenager
    else Adult
  }

  /** `LifeStage.ToString()`. */
  function LifeStageName(s: LifeStage): string {
    match s
    case Child => "Child"
    case Teenager => "Teenager"
    case Adult => "Adult"
  }

  /** The emotion the agent attaches to a response; its values belong to the
      agent library and are opaque here. */
  datatype Emotion = Emotion(name: string)

  /** The manager's state.
      - `agentEnabled`: `useSmartAgent` with a smart agent assigned.
      - `isCoolDown`: no activity is accepted while set.
      - `petTraits`: one counter per activity, over all days.
      - `timeoutRunning`: the `AIResponseTimeout` coroutine is pending.
      - `pendingWaitTimers`: `CoolDownWaitTimer` coroutines still pending.
      - `sentPrompts`: the prompts handed to the agent, oldest first.
      - `mood`: the emotion last shown on the mood icon. */
  datatype Manager = Manager(
    agentEnabled: bool,
    isCoolDown: bool,
    petTraits: Tally,
    timeoutRunning: bool,
    pendingWaitTimers: nat,
    sentPrompts: seq<string>,
    mood: Option<Emotion>)

  /** The manager as the scene creates it. */
  function InitialManager(agentEnabled: bool): Manager {
    Manager(agentEnabled, false, Zero, false, 0, [], None)
  }

  /** The state after a handler, and whether it invoked `OnDayCompleted`. */
  datatype Reaction = Reaction(mgr: Manager, dayCompleted: bool)

  /** The state after a day ends: the manager and the save manager it wrote to. */
  datatype DayEnd = DayEnd(mgr: Manager, store: SaveManager)

  /** Reads a trait summary back into the five counters. */
  function ParseTraitSummary(s: string): Option<Tally> {
    match ParseEntries(s, Names)
    case Some(vs) =>
      if |vs| == 5 then Some(Tally(vs[0], vs[1], vs[2], vs[3], vs[4])) else None
    case None => None
  }

  /** `TraitSummary`: every trait as `key:value`, joined by ", ", in the
      dictionary's insertion order (eat, play, rest, study, exercise). The
      summary names every trait with its value, so the whole trait
      dictionary can be read back from it. */
  function TraitSummary(traits: Tally): (r: string)
    ensures ParseTraitSummary(r) == Some(traits)
  {
    EntriesRoundTrip(Names, traits.Values());
    RenderEntries(Names, traits.Values())
  }

  const TraitsLead := ". Current traits: "
  const Question := ". How does it feel about the day?"

  /** The text sent to the agent at the end of a day: it opens with the life
      stage's name, lists the day's activities joined by ", ", and closes
      with the trait summary and the question. */
  function Prompt(stage: LifeStage, activities: seq<string>, traits: Tally): (r: string)
    ensures var opening := "My pet is a " + LifeStageName(stage) + " (life stage)";
            |opening| <= |r| && r[..|opening|] == opening
    ensures var closing := TraitsLead + TraitSummary(traits) + Question;
            |closing| <= |r| && r[|r| - |closing|..] == closing
    ensures var opening := "My pet is a " + LifeStageName(stage) + " (life stage)";
            var middle := ". Today I gave it these activities: " + Join(", ", activities);
            var closing := TraitsLead + TraitSummary(traits) + Question;
            |r| == |opening| + |middle| + |closing| && r[|opening|..|opening| + |middle|] == middle
  {
    var opening := "My pet is a " + LifeStageName(stage) + " (life stage)";
    var middle := ". Today I gave it these activities: " + Join(", ", activities);
    var closing := TraitsLead + TraitSummary(traits) + Question;
    Framed(opening, middle, closing);
    opening + middle + closing
  }

  lemma Framed(a: string, b: string, c: string)
    ensures (a + b + c)[..|a|] == a
    ensures (a + b + c)[|a + b + c| - |c|..] == c
    ensures |a + b + c| == |a| + |b| + |c| && (a + b + c)[|a|..|a| + |b|] == b
  {
  }

  /** `OnMultipleActivitiesCompleted`: enters cooldown, bumps the trait of
      every entry that is exactly a trait key, saves one day record with the
      week's life stage, and then either sends the prompt and restarts the
      response timeout, or (agent disabled) starts the 2-second wait timer. */
  function OnMultipleActivitiesCompleted(m: Manager, store: SaveManager, activities: seq<string>, day: string, week: int): (r: DayEnd)
    ensures r.mgr.isCoolDown
    ensures forall k :: r.mgr.petTraits.Get(k) == m.petTraits.Get(k) + multiset(activities)[Name(k)]
    ensures r.store == SaveDayData(store, day, week, LifeStageName(GetLifeStageFromWeek(week)), activities)
    ensures r.mgr.agentEnabled == m.agentEnabled && r.mgr.mood == m.mood
    ensures m.agentEnabled ==>
              && r.mgr.timeoutRunning
              && r.mgr.pendingWaitTimers == m.pendingWaitTimers
              && r.mgr.sentPrompts
                 == m.sentPrompts + [Prompt(GetLifeStageFromWeek(week), activities, r.mgr.petTraits)]
    ensures !m.agentEnabled ==>
              && r.mgr.timeoutRunning == m.timeoutRunning
              && r.mgr.pendingWaitTimers == m.pendingWaitTimers + 1
              && r.mgr.sentPrompts == m.sentPrompts
  {
    var stage := GetLifeStageFromWeek(week);
    var traits := AddAll(m.petTraits, activities);
    var store' := SaveDayData(store, day, week, LifeStageName(stage), activities);
    var cooling := m.(isCoolDown := true, petTraits := traits);
    if m.agentEnabled then
      DayEnd(cooling.(sentPrompts := m.sentPrompts + [Prompt(stage, activities, traits)], timeoutRunning := true), store')
    else
      DayEnd(cooling.(pendingWaitTimers := m.pendingWaitTimers + 1), store')
  }

  /** A day end never lowers a trait counter and saves exactly one record,
      labelled with the given day and week and the week's life stage. */
  lemma DayEndSavesOneRecord(m: Manager, store: SaveManager, activities: seq<string>, day: string, week: int)
    ensures var r := OnMultipleActivitiesCompleted(m, store, activities, day, week);
      && (forall k :: r.mgr.petTraits.Get(k) >= m.petTraits.Get(k))
      && |r.store.gameData| == |store.gameData| + 1
      && r.store.gameData[..|store.gameData|] == store.gameData
      && var saved := r.store.gameData[|store.gameData|];
         saved.day == day && saved.week == week
         && saved.lifeStage == LifeStageName(GetLifeStageFromWeek(week))
  {
  }

  /** `HandleAIFailure`: ignored outside cooldown; otherwise leaves cooldown
      and completes the day. */
  function HandleAIFailure(m: Manager, reason: string): (r: Reaction)
    ensures !m.isCoolDown ==> r == Reaction(m, false)
    ensures m.isCoolDown ==> r == Reaction(m.(isCoolDown := false), true)
  {
    if !m.isCoolDown then Reaction(m, false)
    else Reaction(m.(isCoolDown := false), true)
  }

  /** `OnRequestFailed`: stops the response timeout, then handles the failure. */
  function OnRequestFailed(m: Manager, errorMessage: string): (r: Reaction)
    ensures r.dayCompleted <==> m.isCoolDown
    ensures !r.mgr.isCoolDown && !r.mgr.timeoutRunning
    ensures r.mgr.petTraits == m.petTraits && r.mgr.mood == m.mood
    ensures r.mgr.agentEnabled == m.agentEnabled && r.mgr.pendingWaitTimers == m.pendingWaitTimers
    ensures r.mgr.sentPrompts == m.sentPrompts
  {
    HandleAIFailure(m.(timeoutRunning := false), errorMessage)
  }

  /** The `AIResponseTimeout` coroutine reaching its deadline: nothing
      happens unless it is still pending; then it ends and, if the pet is
      still in cooldown, handles a "Request timed out" failure. */
  function AIResponseTimeout(m: Manager): (r: Reaction)
    ensures r.dayCompleted <==> m.timeoutRunning && m.isCoolDown
    ensures !r.mgr.timeoutRunning
    ensures r.mgr.isCoolDown <==> m.isCoolDown && !m.timeoutRunning
    ensures r.mgr.petTraits == m.petTraits && r.mgr.mood == m.mood
    ensures r.mgr.agentEnabled == m.agentEnabled && r.mgr.pendingWaitTimers == m.pendingWaitTimers
    ensures r.mgr.sentPrompts == m.sentPrompts
  {
    if !m.timeoutRunning then Reaction(m, false)
    else
      var ended := m.(timeoutRunning := false);
      if ended.isCoolDown then HandleAIFailure(ended, "Request timed out")
      else Reaction(ended, false)
  }

  /** A `CoolDownWaitTimer` coroutine reaching its 2-second deadline:
      nothing happens unless one is pending; then it ends and, if the pet is
      still in cooldown, leaves cooldown and completes the day. */
  function CoolDownWaitTimer(m: Manager): (r: Reaction)
    ensures r.dayCompleted <==> m.pendingWaitTimers > 0 && m.isCoolDown
    ensures r.mgr.isCoolDown <==> m.isCoolDown && m.pendingWaitTimers == 0
    ensures r.mgr.pendingWaitTimers == if m.pendingWaitTimers > 0 then m.pendingWaitTimers - 1 else 0
    ensures r.mgr.petTraits == m.petTraits && r.mgr.mood == m.mood
    ensures r.mgr.agentEnabled == m.agentEnabled && r.mgr.timeoutRunning == m.timeoutRunning
    ensures r.mgr.sentPrompts == m.sentPrompts
  {
    if m.pendingWaitTimers == 0 then Reaction(m, false)
    else
      var ended := m.(pendingWaitTimers := m.pendingWaitTimers - 1);
      if ended.isCoolDown then Reaction(ended.(isCoolDown := false), true)
      else Reaction(ended, false)
  }

  /** `OnResponseReceived`: stops the response timeout, shows the emotion,
      leaves cooldown and completes the day. It does not look at the
      cooldown flag, so it completes a day even when the day was already
      resolved. */
  function OnResponseReceived(m: Manager, emotion: Emotion): (r: Reaction)
    ensures r.dayCompleted
    ensures !r.mgr.isCoolDown && !r.mgr.timeoutRunning
    ensures r.mgr.mood == Some(emotion)
    ensures r.mgr.petTraits == m.petTraits && r.mgr.sentPrompts == m.sentPrompts
    ensures r.mgr.agentEnabled == m.agentEnabled && r.mgr.pendingWaitTimers == m.pendingWaitTimers
  {
    Reaction(m.(timeoutRunning := false, mood := Some(emotion), isCoolDown := false), true)
  }

  /** Once a day has been resolved by any of the agent's outcomes or by the
      timeout, a later failure or timeout leaves the state as it is and
      does not complete the day again. */
  lemma FailureAndTimeoutIgnoredAfterResolution(m: Manager, first: Reaction, emotion: Emotion, reason: string, again: string)
    requires first == OnResponseReceived(m, emotion)
          || first == OnRequestFailed(m, reason)
          || first == AIResponseTimeout(m)
    requires first.dayCompleted
    ensures OnRequestFailed(first.mgr, again) == Reaction(first.mgr, false)
    ensures AIResponseTimeout(first.mgr) == Reaction(first.mgr, false)
  {
    assert !first.mgr.timeoutRunning && !first.mgr.isCoolDown;
    assert first.mgr.(timeoutRunning := false) == first.mgr;
  }

  /** The wait timer is the fourth way to resolve a day. It leaves the
      response timeout alone, so after it a failure or timeout may still
      clear that timeout, but neither completes the day again. */
  lemma NothingCompletesAfterWaitTimer(m: Manager, again: string)
    requires CoolDownWaitTimer(m).dayCompleted
    ensures !OnRequestFailed(CoolDownWaitTimer(m).mgr, again).dayCompleted
    ensures !AIResponseTimeout(CoolDownWaitTimer(m).mgr).dayCompleted
    ensures OnRequestFailed(CoolDownWaitTimer(m).mgr, again).mgr == CoolDownWaitTimer(m).mgr.(timeoutRunning := false)
  {
  }

  /** A success that arrives after the timeout has already resolved the day
      still completes the day, a second time. */
  lemma LateSuccessCompletesAgain(m: Manager, emotion: Emotion)
    requires m.isCoolDown && m.timeoutRunning
    ensures AIResponseTimeout(m).dayCompleted
    ensures OnResponseReceived(AIResponseTimeout(m).mgr, emotion).dayCompleted
  {
  }
}

=== FILE: save_manager.dfy ===
/** SaveManager.cs: the saved record of one day, and the append-only day
    history kept in memory and mirrored to a save file. The file is an
    abstract value: `None` when no file exists, `Some(h)` when the file holds
    the history `h`. */
module SaveData {
  import opened Wrappers
  import opened Text
  import opened Activities

  /** `DayData`: the day's label, its week, the life stage's name and the
      five activity counts. */
  datatype DayData = DayData(day: string, week: int, lifeStage: string, counts: Tally)

  /** The `DayData` constructor: copies the labels and counts each list
      entry, lower-cased, against the activity names. */
  function NewDayData(day: string, week: int, lifeStage: string, activities: seq<string>): (d: DayData)
    ensures d.day == day && d.week == week && d.lifeStage == lifeStage
    ensures forall k :: d.counts.Get(k) == multiset(LowerAll(activities))[Name(k)]
  {
    DayData(day, week, lifeStage, AddAll(Zero, LowerAll(activities)))
  }

  /** Counts are never negative; unrecognised entries are skipped, so the
      counts add up to at most the number of entries, and to exactly that
      number when every entry, lower-cased, names an activity. */
  lemma NewDayDataTotals(day: string, week: int, lifeStage: string, activities: seq<string>)
    ensures NewDayData(day, week, lifeStage, activities).counts.NonNegative()
    ensures NewDayData(day, week, lifeStage, activities).counts.Total() <= |activities|
    ensures NewDayData(day, week, lifeStage, activities).counts.Total() == |activities|
        <==> AllKnown(LowerAll(activities))
  {
    CountsFromZero(LowerAll(activities));
    AddAllTotal(Zero, LowerAll(activities));
  }

  lemma CountsFromZero(names: seq<string>)
    ensures AddAll(Zero, names).NonNegative()
  {
    var counts := AddAll(Zero, names);
    assert counts.eat == counts.Get(Eat) && counts.play == counts.Get(Play);
    assert counts.rest == counts.Get(Rest) && counts.study == counts.Get(Study);
    assert counts.exercise == counts.Get(Exercise);
  }

  /** Counting is insensitive to the case of the entries. */
  lemma CountsIgnoreCase(day: string, week: int, lifeStage: string, activities: seq<string>)
    ensures NewDayData(day, week, lifeStage, activities).counts
         == NewDayData(day, week, lifeStage, LowerAll(activities)).counts
  {
    var lowered := LowerAll(activities);
    forall i | 0 <= i < |activities|
      ensures ToLower(lowered[i]) == lowered[i]
    {
      ToLowerNormalises(activities[i]);
    }
    assert LowerAll(lowered) == lowered;
  }

  /** The manager's in-memory history (`GameData.dayHistory`) and the save file. */
  datatype SaveManager = SaveManager(gameData: seq<DayData>, file: Option<seq<DayData>>)

  /** `SaveDayData`: appends a new record and rewrites the file with the
      whole history. */
  function SaveDayData(m: SaveManager, day: string, week: int, lifeStage: string, activities: seq<string>): (r: SaveManager)
    ensures |r.gameData| == |m.gameData| + 1
    ensures r.gameData[..|m.gameData|] == m.gameData
    ensures r.gameData[|m.gameData|] == NewDayData(day, week, lifeStage, activities)
    ensures r.file == Some(r.gameData)
  {
    var h := m.gameData + [NewDayData(day, week, lifeStage, activities)];
    assert h[..|m.gameData|] == m.gameData;
    SaveManager(h, Some(h))
  }

  /** `LoadGameData`: the history in the file, or a fresh empty history
      when there is no file. The file itself is left as it is. */
  function LoadGameData(m: SaveManager): (r: SaveManager)
    ensures r.file == m.file
    ensures r.gameData == m.file.GetOr([])
  {
    match m.file
    case Some(h) => SaveManager(h, m.file)
    case None => SaveManager([], m.file)
  }

  /** `ClearSaveData`: an empty history and no file. */
  function ClearSaveData(m: SaveManager): (r: SaveManager)
    ensures r.gameData == [] && r.file.None?
  {
    SaveManager([], None)
  }

  /** The manager as `Awake` leaves it: whatever the file holds, loaded. */
  function Awake(file: Option<seq<DayData>>): (r: SaveManager)
    ensures r.file == file && r.gameData == file.GetOr([])
    ensures InSync(r)
  {
    LoadGameData(SaveManager([], file))
  }

  /** Memory and file agree: the file holds exactly the in-memory history,
      or there is no file and the history is empty. */
  predicate InSync(m: SaveManager) {
    m.file == Some(m.gameData) || (m.file.None? && m.gameData == [])
  }

  /** Loading establishes agreement, and save and clear preserve it; on an
      agreeing manager loading changes nothing. */
  lemma OperationsKeepInSync(m: SaveManager, day: string, week: int, lifeStage: string, activities: seq<string>)
    ensures InSync(LoadGameData(m))
    ensures InSync(SaveDayData(m, day, week, lifeStage, activities))
    ensures InSync(ClearSaveData(m))
    ensures InSync(m) ==> LoadGameData(m) == m
  {
  }

  /** A restart after any sequence of saves reads back the history last
      written: reloading the file written by a save yields exactly the
      in-memory history that save produced. */
  lemma LoadAfterSave(m: SaveManager, day: string, week: int, lifeStage: string, activities: seq<string>)
    ensures Awake(SaveDayData(m, day, week, lifeStage, activities).file)
         == SaveDayData(m, day, week, lifeStage, activities)
  {
  }

  /** Two saves on a fresh manager, then a restart, give back the two
      records in the order they were saved. */
  lemma TwoSavesRoundTrip(file: Option<seq<DayData>>, d1: string, w1: int, l1: string, a1: seq<string>,
                          d2: string, w2: int, l2: string, a2: seq<string>)
    requires file.None?
    ensures Awake(SaveDayData(SaveDayData(Awake(file), d1, w1, l1, a1), d2, w2, l2, a2).file).gameData
         == [NewDayData(d1, w1, l1, a1), NewDayData(d2, w2, l2, a2)]
  {
    var m0 := Awake(file);
    var m1 := SaveDayData(m0, d1, w1, l1, a1);
    var m2 := SaveDayData(m1, d2, w2, l2, a2);
    assert m1.gameData == [NewDayData(d1, w1, l1, a1)];
    assert m2.gameData == m1.gameData + [NewDayData(d2, w2, l2, a2)];
  }

  /** After clearing, a restart finds no file and starts an empty history. */
  lemma LoadAfterClear(m: SaveManager)
    ensures Awake(ClearSaveData(m).file).gameData == []
    ensures Awake(None).gameData == []
  {
  }
}

=== FILE: seqs.dfy ===
/** Order-preserving selection from a sequence, the shape shared by the
    per-week query over the day history and the recent-weeks window of the
    offline trainer. */
module Seqs {

  /** The elements of `s` satisfying `keep`, in their original order. */
  function Filter<T(==,!new)>(s: seq<T>, keep: T -> bool): (r: seq<T>)
    ensures |r| <= |s|
    ensures forall x {:trigger multiset(r)[x]} :: multiset(r)[x] == if keep(x) then multiset(s)[x] else 0
    ensures forall x :: x in r <==> x in s && keep(x)
    decreases |s|
  {
    if |s| == 0 then []
    else
      var last := s[|s| - 1];
      assert s == s[..|s| - 1] + [last];
      Filter(s[..|s| - 1], keep) + (if keep(last) then [last] else [])
  }

  /** `a` can be obtained from `b` by deleting elements. */
  predicate IsSubsequence<T(==)>(a: seq<T>, b: seq<T>)
    decreases |b|
  {
    if |a| == 0 then true
    else if |b| == 0 then false
    else
      (a[|a| - 1] == b[|b| - 1] && IsSubsequence(a[..|a| - 1], b[..|b| - 1]))
      || IsSubsequence(a, b[..|b| - 1])
  }

  /** Filtering keeps the surviving elements in their original order. */
  lemma {:induction false} FilterIsSubsequence<T(!new)>(s: seq<T>, keep: T -> bool)
    ensures IsSubsequence(Filter(s, keep), s)
    decreases |s|
  {
    if |s| > 0 {
      var init := s[..|s| - 1];
      var last := s[|s| - 1];
      FilterIsSubsequence(init, keep);
      var r := Filter(s, keep);
      if keep(last) {
        assert r[..|r| - 1] == Filter(init, keep);
      } else {
        assert r == Filter(init, keep);
        if |r| > 0 {
          assert s[..|s| - 1] == init;
        }
      }
    }
  }

  /** Filtering a sequence extended by one element extends the filtered
      prefix by that element exactly when it is kept. */
  lemma FilterSnoc<T(!new)>(s: seq<T>, x: T, keep: T -> bool)
    ensures Filter(s + [x], keep) == Filter(s, keep) + (if keep(x) then [x] else [])
  {
    assert (s + [x])[..|s|] == s;
  }

  /** One step of a left-to-right filtering loop: the filtered prefix grows
      by the next element exactly when it is kept. */
  lemma FilterPrefixStep<T(!new)>(s: seq<T>, i: nat, keep: T -> bool)
    requires i < |s|
    ensures Filter(s[..i + 1], keep) == Filter(s[..i], keep) + (if keep(s[i]) then [s[i]] else [])
  {
    assert s[..i + 1] == s[..i] + [s[i]];
    FilterSnoc(s[..i], s[i], keep);
  }

  /** When every element is kept, filtering changes nothing. */
  lemma {:induction false} FilterKeepsAll<T(!new)>(s: seq<T>, keep: T -> bool)
    requires forall i :: 0 <= i < |s| ==> keep(s[i])
    ensures Filter(s, keep) == s
    decreases |s|
  {
    if |s| > 0 {
      FilterKeepsAll(s[..|s| - 1], keep);
      assert s == s[..|s| - 1] + [s[|s| - 1]];
    }
  }
}

=== FILE: text.dfy ===
/** String helpers shared by the model: ASCII lower-casing (C# `ToLower`),
    `string.Join`, and decimal rendering/parsing of integers (C# `$"{n}"`). */
module Text {
  import opened Wrappers

  /** Lower-cases one character; only the ASCII letters A-Z are mapped. */
  function LowerChar(c: char): char {
    if 'A' <= c <= 'Z' then (c as int + 32) as char else c
  }

  /** `s.ToLower()`, restricted to ASCII. */
  function ToLower(s: string): (r: string)
    ensures |r| == |s|
    ensures forall i {:trigger r[i]} :: 0 <= i < |s| ==> r[i] == LowerChar(s[i])
  {
    seq(|s|, i requires 0 <= i < |s| => LowerChar(s[i]))
  }

  /** No upper-case ASCII letter occurs in `s`. */
  predicate IsLowerCase(s: string) {
    forall i :: 0 <= i < |s| ==> !('A' <= s[i] <= 'Z')
  }

  /** Lower-casing yields a lower-case string and leaves lower-case strings alone. */
  lemma ToLowerNormalises(s: string)
    ensures IsLowerCase(ToLower(s))
    ensures IsLowerCase(s) ==> ToLower(s) == s
  {
  }

  /** Lower-cases every element of a list, keeping its order. */
  function LowerAll(names: seq<string>): (r: seq<string>)
    ensures |r| == |names|
    ensures forall i {:trigger r[i]} :: 0 <= i < |names| ==> r[i] == ToLower(names[i])
  {
    seq(|names|, i requires 0 <= i < |names| => ToLower(names[i]))
  }

  /** `string.Join(sep, parts)`. */
  function Join(sep: string, parts: seq<string>): string
    decreases |parts|
  {
    if |parts| == 0 then ""
    else if |parts| == 1 then parts[0]
    else parts[0] + sep + Join(sep, parts[1..])
  }

  predicate IsDigit(c: char) {
    '0' <= c <= '9'
  }

  predicate AllDigits(s: string) {
    forall i :: 0 <= i < |s| ==> IsDigit(s[i])
  }

  function DigitChar(d: int): (c: char)
    requires 0 <= d < 10
    ensures IsDigit(c)
  {
    ('0' as int + d) as char
  }

  /** Decimal rendering of a natural number, most significant digit first. */
  function NatToString(n: nat): (r: string)
    ensures |r| > 0 && AllDigits(r)
  {
    if n < 10 then [DigitChar(n)] else NatToString(n / 10) + [DigitChar(n % 10)]
  }

  /** Decimal rendering of an integer, with a leading '-' when negative. */
  function IntToString(i: int): (r: string)
    ensures |r| > 0
  {
    if i < 0 then "-" + NatToString(-i) else NatToString(i)
  }

  /** The value of a string of decimal digits. */
  function DigitsValue(s: string): nat
    requires AllDigits(s)
    decreases |s|
  {
    if |s| == 0 then 0
    else DigitsValue(s[..|s| - 1]) * 10 + (s[|s| - 1] as int - '0' as int)
  }

  /** Length of the longest prefix of `s` made of digits. */
  function DigitRunLength(s: string): (n: nat)
    ensures n <= |s|
    ensures AllDigits(s[..n])
    ensures n < |s| ==> !IsDigit(s[n])
    decreases |s|
  {
    if |s| == 0 || !IsDigit(s[0]) then 0
    else
      var n := 1 + DigitRunLength(s[1..]);
      assert s[..n] == [s[0]] + s[1..][..n - 1];
      n
  }

  /** Reads a decimal natural number at the front of `s` and returns it with
      the rest of the string; `None` when `s` does not start with a digit. */
  function ParseNatPrefix(s: string): Option<(nat, string)> {
    var n := DigitRunLength(s);
    if n == 0 then None else Some((DigitsValue(s[..n]), s[n..]))
  }

  /** Reads an optionally negative decimal integer at the front of `s` and
      returns it with the rest of the string; `None` when no digit follows. */
  function ParseIntPrefix(s: string): Option<(int, string)> {
    if |s| > 0 && s[0] == '-' then
      match ParseNatPrefix(s[1..])
      case None => None
      case Some(p) => Some((-(p.0 as int), p.1))
    else
      match ParseNatPrefix(s)
      case None => None
      case Some(p) => Some((p.0 as int, p.1))
  }

  lemma {:induction false} NatToStringValue(n: nat)
    ensures DigitsValue(NatToString(n)) == n
    decreases n
  {
    if n >= 10 {
      var s := NatToString(n);
      NatToStringValue(n / 10);
      assert s[..|s| - 1] == NatToString(n / 10);
    }
  }

  lemma {:induction false} DigitRunOfDigits(d: string, rest: string)
    requires AllDigits(d)
    requires rest == [] || !IsDigit(rest[0])
    ensures DigitRunLength(d + rest) == |d|
    decreases |d|
  {
    if |d| > 0 {
      assert (d + rest)[1..] == d[1..] + rest;
      DigitRunOfDigits(d[1..], rest);
    }
  }

  /** Rendering then reading a natural number gives it back, whatever
      non-digit text follows it. */
  lemma NatRoundTrip(n: nat, rest: string)
    requires rest == [] || !IsDigit(rest[0])
    ensures ParseNatPrefix(NatToString(n) + rest) == Some((n, rest))
  {
    var d := NatToString(n);
    var s := d + rest;
    DigitRunOfDigits(d, rest);
    assert s[..|d|] == d;
    assert s[|d|..] == rest;
    NatToStringValue(n);
  }

  /** Rendering then reading an integer gives it back, whatever non-digit
      text follows it. */
  lemma IntRoundTrip(i: int, rest: string)
    requires rest == [] || !IsDigit(rest[0])
    ensures ParseIntPrefix(IntToString(i) + rest) == Some((i, rest))
  {
    if i < 0 {
      var d := NatToString(-i);
      var s := IntToString(i) + rest;
      assert s == ['-'] + (d + rest);
      assert s[0] == '-';
      assert s[1..] == d + rest;
      NatRoundTrip(-i, rest);
      assert ParseNatPrefix(s[1..]) == Some((-i, rest));
    } else {
      var d := NatToString(i);
      assert d[0] != '-';
      NatRoundTrip(i, rest);
    }
  }

  /** One `key:value` entry. */
  function Entry(key: string, value: int): string {
    key + ":" + IntToString(value)
  }

  /** The entries `keys[i]:values[i]` in order, separated by ", "
      (`string.Join(", ", entries)`). */
  function RenderEntries(keys: seq<string>, values: seq<int>): string
    requires |keys| == |values| > 0
    decreases |keys|
  {
    if |keys| == 1 then Entry(keys[0], values[0])
    else Entry(keys[0], values[0]) + ", " + RenderEntries(keys[1..], values[1..])
  }

  /** Reads `key:value` entries separated by ", ", expecting exactly the keys
      `keys` in that order, and returns their values. */
  function ParseEntries(s: string, keys: seq<string>): Option<seq<int>>
    requires |keys| > 0
    decreases |keys|
  {
    var head := keys[0] + ":";
    if |s| < |head| || s[..|head|] != head then None
    else
      match ParseIntPrefix(s[|head|..])
      case None => None
      case Some(p) =>
        var (v, rest) := p;
        if |keys| == 1 then
          if rest == [] then Some([v]) else None
        else if |rest| < 2 || rest[..2] != ", " then None
        else
          match ParseEntries(rest[2..], keys[1..])
          case None => None
          case Some(vs) => Some([v] + vs)
  }

  /** Parsing a rendering returns the values it was rendered from. */
  lemma {:induction false} EntriesRoundTrip(keys: seq<string>, values: seq<int>)
    requires |keys| == |values| > 0
    ensures ParseEntries(RenderEntries(keys, values), keys) == Some(values)
    decreases |keys|
  {
    var head := keys[0] + ":";
    var num := IntToString(values[0]);
    var rest: string := if |keys| == 1 then [] else ", " + RenderEntries(keys[1..], values[1..]);
    var s := RenderEntries(keys, values);
    assert s == head + (num + rest);
    assert s[..|head|] == head;
    assert s[|head|..] == num + rest;
    IntRoundTrip(values[0], rest);
    if |keys| == 1 {
      assert [values[0]] == values;
    } else {
      assert rest[2..] == RenderEntries(keys[1..], values[1..]);
      EntriesRoundTrip(keys[1..], values[1..]);
      assert [values[0]] + values[1..] == values;
    }
  }
}

=== FILE: wrappers.dfy ===
/** The optional-value wrapper used where the source returns `null`, raises a
    lookup error, or keeps a file that may not exist. */
module Wrappers {

  datatype Option<+T> = None | Some(value: T) {

    /** The wrapped value, or `default` when there is none. */
    function GetOr(default: T): T {
      match this
      case Some(v) => v
      case None => default
    }
  }
}
